=== FILE: README.md ===
# FileReferenceFinder, modelled in Dafny

`FileReferenceFinder` is a small Java command-line tool for ad hoc dead-code
detection. It collects every `.java` file under a project root. It then checks
some of those files as *targets*. A target is *referenced* when some other
collected file has a line that starts with `import` and contains the target's
base name. The tool prints `No imports found for: <relative path>` for every
unreferenced target.

This project models the tool's decision logic as pure Dafny definitions. It
also models the tool's loops as methods proved equal to those definitions.

- `wrappers.dfy` (`Wrappers`): `Option`, used for unreadable files and for
  names without a dot.
- `java_strings.dfy` (`JavaStrings`): the `String` operations the tool uses.
  These are `startsWith`, `endsWith`, `contains`, `lastIndexOf` and
  `toLowerCase`, defined on `seq<char>`. `startsWith` and `endsWith` are
  defined directly; `contains`, `lastIndexOf` and `toLowerCase` carry a
  characterising contract.
- `file_reference_finder.dfy` (`FileReferenceFinder`): the corpus entry
  datatype, the extension filter of `collectFiles`, the target filter, base-name
  stripping, the line predicate, `searchFileInContent`, the all-pairs inner
  loop, and the report loop of `main`.
- `finder_properties.dfy` (`FinderProperties`): lemmas relating these pieces.
  They also pin down concrete scenarios.

The file system is an input. The directory walk is a sequence of `Entry`
values in walk order. Each entry has a file name and a relative path, and
the outcome of reading it: `Some` of the lines read, or `None` when opening
the file fails or closing it fails after a matching line. The walk itself may be
`None`, which stands for an `IOException` raised while listing a directory.

## The target filter

The condition at `FileReferenceFinder.java:42` skips a file when
`!endsWith(".java") || !endsWith("Test.java")`. The condition can look
unsatisfiable, but every name ending in `Test.java` also ends in `.java`, so
the filter keeps exactly the names that end in `Test.java`, compared
case-sensitively. `TargetIffTestSuffix` proves this.

## Model

| member | source | states |
|---|---|---|
| JavaStrings.StartsWith | FileReferenceFinder.java:103 | definition of `String.startsWith`: the prefix is no longer than the string and equals its first characters |
| JavaStrings.EndsWith | FileReferenceFinder.java:42 | definition of `String.endsWith`, used at lines 42 and 89: the suffix is no longer than the string and equals its last characters |
| JavaStrings.Contains | FileReferenceFinder.java:103 | `line.contains(base)` holds iff the base name occurs as a contiguous block at some index of the line |
| JavaStrings.LastIndexOf | FileReferenceFinder.java:51 | `lastIndexOf('.')` is -1 iff there is no dot; otherwise it is a dot's position, with no dot after it |
| JavaStrings.ToLower | FileReferenceFinder.java:88 | lower-casing keeps the length and folds each character on its own |
| FileReferenceFinder.HasValidExtension | FileReferenceFinder.java:88-89 | definition: the lower-cased name ends with some extension of `VALID_EXTENSIONS`, which holds only `.java` |
| FileReferenceFinder.CollectFiles | FileReferenceFinder.java:80-95 | the collected list contains a walked file iff its lower-cased name ends with a valid extension; it is never longer than the walk |
| FileReferenceFinder.SkippedAsTarget | FileReferenceFinder.java:42-44 | definition, as written: a collected file is passed over when its name does not end in `.java` or does not end in `Test.java` |
| FileReferenceFinder.IsTarget | FileReferenceFinder.java:42-44 | definition: a file is checked as a target when the filter does not pass it over |
| FileReferenceFinder.BaseName | FileReferenceFinder.java:51 | the base name is the prefix before the last dot (no dot follows it); there is no base name (the `substring` would throw) iff the name has no dot |
| FileReferenceFinder.TargetBaseDropsExtension | FileReferenceFinder.java:41-51 | for every target, the last dot is the one of `.java`, so the base name is the name minus its final five characters |
| FileReferenceFinder.TargetBase | FileReferenceFinder.java:51 | for a target, `substring` does not throw, and the base name followed by `.java` gives back the name |
| FileReferenceFinder.LineMatches | FileReferenceFinder.java:103 | definition: the line starts with `import` and contains the base name |
| FileReferenceFinder.Mentions | FileReferenceFinder.java:99-111 | definition of what `searchFileInContent` returns: the file was read and some line matches |
| FileReferenceFinder.SearchFileInContent | FileReferenceFinder.java:99-111 | the scan returns true iff the file was read and one of its lines starts with `import` and contains the base name; an unreadable file gives false |
| FileReferenceFinder.Referenced | FileReferenceFinder.java:55-67 | definition of `foundReference` after the inner loop: some collected file with a different identity from the target mentions the base name |
| FileReferenceFinder.SearchOtherFiles | FileReferenceFinder.java:55-67 | `foundReference` ends true iff some collected file other than the target (by identity) mentions the base name |
| FileReferenceFinder.ReportFor | FileReferenceFinder.java:69-71 | definition: the entry prints `No imports found for: ` and its relative path iff it is a target and is not referenced; otherwise nothing |
| FileReferenceFinder.ExpectedOutput | FileReferenceFinder.java:34-37 | definition: the "no files" message alone for an empty corpus; otherwise the entries' report lines in corpus order |
| FileReferenceFinder.ReportUnreferenced | FileReferenceFinder.java:34-71 | the printed lines are the "no files" message for an empty corpus; otherwise one `No imports found for:` line per unreferenced target, in corpus order |
| FileReferenceFinder.Run | FileReferenceFinder.java:27-75 | a failed directory walk prints nothing on standard output; otherwise the output is the report over the collected files |
| FinderProperties.ValidExtensionIgnoresCase | FileReferenceFinder.java:88-89 | a file is collected iff the last five characters of its name equal `.java` ignoring case |
| FinderProperties.UpperCaseExtensionIsKept | FileReferenceFinder.java:88-89 | `Foo.JAVA` is collected |
| FinderProperties.ShortExtensionIsDropped | FileReferenceFinder.java:88-89 | `Foo.jav` is not collected |
| FinderProperties.CollectFilesAppend | FileReferenceFinder.java:80-95 | collection keeps walk order: collecting two walks one after the other gives the two collections one after the other |
| FinderProperties.TargetIffTestSuffix | FileReferenceFinder.java:42-44 | a name passes the target filter iff it ends, case-sensitively, in `Test.java`; the `.java` test is redundant |
| FinderProperties.TargetExamples | FileReferenceFinder.java:42-44 | `FooTest.java` is a target; `Foo.java`, `Foo.JAVA`, `FooTest.JAVA` and `Test.javax` are not |
| FinderProperties.TargetsAreCollected | FileReferenceFinder.java:42 | every name that passes the target filter also passes the extension filter |
| FinderProperties.TargetBaseEndsInTest | FileReferenceFinder.java:51 | a target's base name is five characters shorter than the name and ends in `Test` |
| FinderProperties.LeadingBlankNeverMatches | FileReferenceFinder.java:103 | a line that begins with a blank or a tab never counts as a reference |
| FinderProperties.ImportLinesMatch | FileReferenceFinder.java:103 | `importance Foo` matches `Foo` and `import pkg.B;` matches `B`: the prefix test is literal |
| FinderProperties.OtherLinesDoNotMatch | FileReferenceFinder.java:103 | a commented-out import of `Foo` and an import of `Bar` do not match `Foo` |
| FinderProperties.ScanAllIff | FileReferenceFinder.java:102-106 | a scan that reads every line without stopping ends true iff it started true or some line matches |
| FinderProperties.EarlyExitAgreesWithFullScan | FileReferenceFinder.java:99-110 | returning at the first matching line gives the same answer as scanning every line; a failed read gives false |
| FinderProperties.UnmatchedReadIsLikeFailure | FileReferenceFinder.java:102-110 | when no line read matches, the file answers false, the same as a file that could not be opened |
| FinderProperties.SelfContentIrrelevant | FileReferenceFinder.java:56-60 | replacing the target's own lines never changes whether it is referenced, so a target cannot reference itself |
| FinderProperties.ReferencedByAnotherIndex | FileReferenceFinder.java:58 | when every file appears once in the corpus, skipping the target by identity skips exactly its own position |
| FinderProperties.ReferencedWithinMonotone | FileReferenceFinder.java:55-67 | `foundReference` never goes back to false along the inner loop, and after the last file it means "referenced" |
| FinderProperties.ReportPrefixMembership | FileReferenceFinder.java:40-71 | after processing the first n entries, a line has been printed iff it is the report line of an unreferenced target among them |
| FinderProperties.ReportPrefixLength | FileReferenceFinder.java:69-71 | processing n entries prints at most n lines |
| FinderProperties.OutputMembership | FileReferenceFinder.java:34-71 | for a non-empty corpus, a line is printed iff it reports an unreferenced target; there are at most as many lines as files |
| FinderProperties.NoFilesMessageIsNotAReport | FileReferenceFinder.java:35 | the "no files" message differs from every report line |
| FinderProperties.NoFilesMessageIffEmpty | FileReferenceFinder.java:34-37 | the "no files" message is printed iff nothing was collected, and then it is the only line |
| FinderProperties.NoTargetsNoOutput | FileReferenceFinder.java:40-44 | a corpus without targets prints no report lines |
| FinderProperties.PlainFilesAreNeverChecked | FileReferenceFinder.java:40-71 | `Foo.java` imported by `Bar.java` prints nothing, because neither file is a target |
| FinderProperties.SelfImportIsReported | FileReferenceFinder.java:56-71 | a lone `FooTest.java` whose only line imports itself is reported |
| FinderProperties.ImportOnLaterLineCounts | FileReferenceFinder.java:55-71 | an import of `FooTest` on the second line of another file makes `FooTest.java` referenced, so nothing is printed |
| FinderProperties.UnreadableFileIsNoReference | FileReferenceFinder.java:99-111 | a target whose only other file cannot be read is reported |

## Left out

- Argument-count and root-directory validation (`FileReferenceFinder.java:13-25`): the argument-count check depends on the command line, the root-directory check on the file system; neither is modelled.
- Directory walking (`collectFiles`' recursion, `isDirectory`, `newDirectoryStream`): the walk is an input sequence in walk order, because the order is defined by the file system.
- `toAbsolutePath`, `normalize` and `relativize`: the relative path is an opaque string on each entry. It also stands for file identity in the `File.equals` test of line 58. Under one root, a file's path and its relative path determine each other.
- File reading: the lines of each file are given as `Option<seq<string>>`, where `None` means that opening the file failed, or that closing the reader failed after a matching line (see the next two lines). Every other outcome is `Some` of the lines read. `readLine`'s line splitting is not modelled.
- Repeated reads: `main` reopens every other file once per target (the call at line 63 inside the loop at line 40). Each entry carries one fixed read outcome, so the model assumes that every read of a file yields the same lines or the same failure. A file that changes or starts failing during the run is not modelled.
- Failing `close()`: the reader is closed by try-with-resources at line 100. If `close()` throws after the early `return true` at line 104, the `catch` at line 107 takes the exception and the method returns false at line 110. Such a file is encoded as `None`. A failing `close()` after no matching line changes nothing, since the method returns false either way, so that file stays `Some` of its lines.
- Character encoding: Java strings are UTF-16, while the model works on decoded Unicode characters. Positions such as `lastIndexOf`'s result differ for names containing characters outside the Basic Multilingual Plane, but the base name and the printed lines do not. Ill-formed UTF-16 names, such as a name holding a lone surrogate, are not modelled.
- Partial reads: a read that fails after some lines is encoded as `Some` of the lines read before the failure. This matches the source, because `searchFileInContent` has already returned true at line 104 if one of those lines matched, and otherwise returns false at line 110. `UnmatchedReadIsLikeFailure` shows that when no line read matches, `Some` of those lines and `None` give the same answer.
- Standard error: the text of every error message is not modelled. The `IOException` that `collectFiles` propagates to `main`'s `catch` is the `None` walk of `Run`, which prints nothing on standard output.
- JavaStrings.ToLower: folds only the ASCII letters `A`-`Z`, not the full locale-sensitive Unicode mapping of `String.toLowerCase()`. No non-ASCII character lower-cases to `.`, `j`, `a` or `v`, so this does not change which names end in `.java`.
- FileReferenceFinder.BaseName: `None` stands for the `StringIndexOutOfBoundsException` that `substring(0, -1)` throws. No crash path appears in the report, because `TargetBaseDropsExtension` shows that every target has a dot.
- Unchecked runtime failures other than `IOException` (for example an `IOError` from `toAbsolutePath`) are not modelled.

=== FILE: file_reference_finder.dfy ===
/** The decision logic of `FileReferenceFinder`: which collected files are
    kept, which of them are checked as targets, when a target counts as
    referenced, and which lines are printed.

    The file system is an input: the directory walk is given as a sequence of
    entries in walk order, each carrying the file's name, its path relative to
    the project root, and the outcome of reading it (see `Entry`). */
module FileReferenceFinder {
  import opened Wrappers
  import opened JavaStrings

  /** One regular file met by the directory walk. `path` is the relative path
      that is printed; it also stands for the file's identity (`File.equals`).
      `content` is the outcome of reading the file: `None` when opening it
      fails, or when closing the reader fails after a matching line (the
      exception from `close()` replaces the early `return true`); otherwise
      `Some` of the lines read, which for a read that fails part-way are the
      lines read before the failure. A failure that only follows non-matching
      lines may equally be written `None`: both give false. The file is
      reopened once per target; one fixed outcome per entry assumes every
      read of it turns out the same. */
  datatype Entry = Entry(name: string, path: string, content: Option<seq<string>>)

  const JavaExtension: string := ".java"
  /** `VALID_EXTENSIONS` */
  const ValidExtensions: set<string> := {JavaExtension}
  /** The second suffix of the target filter. */
  const TestSuffix: string := "Test.java"
  const ImportKeyword: string := "import"
  /** How the one-element extension set prints. */
  const ExtensionsText: string := "[" + JavaExtension + "]"
  /** The line printed when nothing was collected. */
  const NoFilesMessage: string := "No files with extensions " + ExtensionsText + " found in the project."
  const NoImportsPrefix: string := "No imports found for: "

  // ---------------------------------------------------------------------
  // File collector

  /** The extension test of `collectFiles`: the lower-cased name ends with
      some valid extension. */
  predicate HasValidExtension(name: string) {
    var lower := ToLower(name);
    exists ext | ext in ValidExtensions :: EndsWith(lower, ext)
  }

  /** `collectFiles` over an already-walked tree: keeps, in walk order, the
      files whose name has a valid extension. */
  function CollectFiles(walk: seq<Entry>): (kept: seq<Entry>)
    ensures |kept| <= |walk|
    ensures forall e :: e in kept <==> e in walk && HasValidExtension(e.name)
    decreases |walk|
  {
    if |walk| == 0 then []
    else
      var rest := CollectFiles(walk[1..]);
      assert forall e :: e in walk <==> e == walk[0] || e in walk[1..];
      if HasValidExtension(walk[0].name) then [walk[0]] + rest else rest
  }

  // ---------------------------------------------------------------------
  // Reference checker

  /** The target filter, as written: a collected file is passed over when
      its name fails either of the two case-sensitive suffix tests. */
  predicate SkippedAsTarget(name: string) {
    !EndsWith(name, JavaExtension) || !EndsWith(name, TestSuffix)
  }

  predicate IsTarget(name: string) {
    !SkippedAsTarget(name)
  }

  /** `name.substring(0, name.lastIndexOf('.'))`: everything before the last
      dot. `None` stands for the `StringIndexOutOfBoundsException` that
      `substring(0, -1)` throws on a name without a dot. */
  function BaseName(name: string): (r: Option<string>)
    ensures r.None? <==> '.' !in name
    ensures r.Some? ==> |r.value| < |name| && name[..|r.value|] == r.value
    ensures r.Some? ==> name[|r.value|] == '.' && '.' !in name[|r.value| + 1..]
  {
    var dot := LastIndexOf(name, '.');
    if dot < 0 then None else Some(name[..dot])
  }

  /** For a target, the last dot is the one of `.java`. */
  lemma TargetBaseDropsExtension(name: string)
    requires IsTarget(name)
    ensures BaseName(name) == Some(name[..|name| - |JavaExtension|])
  {
    var n := |name|;
    assert name[n - 5..] == ".java";
    assert name[n - 5] == '.';
    assert '.' in name;
    var b := BaseName(name).value;
    assert |b| == n - 5;
  }

  /** The base name searched for on behalf of a target. `substring` cannot
      throw here: the name minus its `.java` suffix is what is searched for. */
  function TargetBase(name: string): (base: string)
    requires IsTarget(name)
    ensures BaseName(name) == Some(base)
    ensures base + JavaExtension == name
  {
    TargetBaseDropsExtension(name);
    var base := BaseName(name).value;
    assert name == name[..|name| - 5] + name[|name| - 5..];
    base
  }

  /** The line test of `searchFileInContent`: a literal `import` prefix (no
      leading blanks allowed) and the base name anywhere in the line. */
  predicate LineMatches(line: string, base: string) {
    StartsWith(line, ImportKeyword) && Contains(line, base)
  }

  /** A file mentions `base` when it could be read and one of its lines
      matches; an unreadable file mentions nothing. */
  predicate Mentions(content: Option<seq<string>>, base: string) {
    content.Some? && exists k | 0 <= k < |content.value| :: LineMatches(content.value[k], base)
  }

  /** `searchFileInContent`: reads lines in order and stops at the first
      matching one; a read failure yields false. */
  method SearchFileInContent(base: string, content: Option<seq<string>>) returns (found: bool)
    ensures found <==> Mentions(content, base)
  {
    if content.None? {
      return false;
    }
    var lines := content.value;
    var i := 0;
    while i < |lines|
      invariant 0 <= i <= |lines|
      invariant forall k :: 0 <= k < i ==> !LineMatches(lines[k], base)
    {
      if LineMatches(lines[i], base) {
        return true;
      }
      i := i + 1;
    }
    return false;
  }

  /** Some file of the corpus other than the target at `t` (by identity)
      mentions `base`. */
  predicate Referenced(corpus: seq<Entry>, t: nat, base: string)
    requires t < |corpus|
  {
    exists j | 0 <= j < |corpus| :: corpus[j].path != corpus[t].path && Mentions(corpus[j].content, base)
  }

  /** Some file among the first `s` of the corpus, other than the target at
      `t`, mentions `base`: the value of `foundReference` after `s` rounds of
      the inner loop. */
  predicate ReferencedWithin(corpus: seq<Entry>, t: nat, base: string, s: nat)
    requires t < |corpus| && s <= |corpus|
  {
    exists j | 0 <= j < s :: corpus[j].path != corpus[t].path && Mentions(corpus[j].content, base)
  }

  // ---------------------------------------------------------------------
  // Reporter

  /** The line printed for the entry at `t`, if any. */
  function ReportFor(corpus: seq<Entry>, t: nat): seq<string>
    requires t < |corpus|
  {
    var e := corpus[t];
    if IsTarget(e.name) && !Referenced(corpus, t, TargetBase(e.name))
    then [NoImportsPrefix + e.path]
    else []
  }

  /** The lines printed while processing the first `n` entries as targets. */
  function ReportPrefix(corpus: seq<Entry>, n: nat): seq<string>
    requires n <= |corpus|
  {
    if n == 0 then [] else ReportPrefix(corpus, n - 1) + ReportFor(corpus, n - 1)
  }

  /** Everything printed to standard output for a collected corpus. */
  function ExpectedOutput(corpus: seq<Entry>): seq<string> {
    if |corpus| == 0 then [NoFilesMessage] else ReportPrefix(corpus, |corpus|)
  }

  /** The inner loop of `main`: every collected file other than the target
      is searched, with no early exit; `foundReference`, once true, stays
      true. */
  method SearchOtherFiles(corpus: seq<Entry>, t: nat, base: string) returns (foundReference: bool)
    requires t < |corpus|
    ensures foundReference <==> Referenced(corpus, t, base)
  {
    var target := corpus[t];
    foundReference := false;
    var s := 0;
    while s < |corpus|
      invariant 0 <= s <= |corpus|
      invariant foundReference <==> ReferencedWithin(corpus, t, base, s)
    {
      var searchFile := corpus[s];
      if searchFile.path != target.path {
        var hit := SearchFileInContent(base, searchFile.content);
        if hit {
          foundReference := true;
        }
      }
      s := s + 1;
    }
  }

  /** The body of `main` after collection: the empty-corpus message, or the
      all-pairs scan printing one line per unreferenced target. */
  method ReportUnreferenced(corpus: seq<Entry>) returns (out: seq<string>)
    ensures out == ExpectedOutput(corpus)
  {
    if |corpus| == 0 {
      return [NoFilesMessage];
    }
    out := [];
    var t := 0;
    while t < |corpus|
      invariant 0 <= t <= |corpus|
      invariant out == ReportPrefix(corpus, t)
    {
      var target := corpus[t];
      assert ReportPrefix(corpus, t + 1) == ReportPrefix(corpus, t) + ReportFor(corpus, t);
      if SkippedAsTarget(target.name) {
        assert ReportFor(corpus, t) == [];
        t := t + 1;
        continue;
      }
      var base := TargetBase(target.name);
      var foundReference := SearchOtherFiles(corpus, t, base);
      if !foundReference {
        out := out + [NoImportsPrefix + target.path];
      }
      assert out == ReportPrefix(corpus, t) + ReportFor(corpus, t);
      t := t + 1;
    }
  }

  /** The whole run after argument checking: collect, then report. `walk` is
      `None` when the directory walk raised an `IOException`; `main` catches
      it and prints nothing to standard output. */
  method Run(walk: Option<seq<Entry>>) returns (out: seq<string>)
    ensures walk.None? ==> out == []
    ensures walk.Some? ==> out == ExpectedOutput(CollectFiles(walk.value))
  {
    if walk.None? {
      return [];
    }
    var allFiles := CollectFiles(walk.value);
    out := ReportUnreferenced(allFiles);
  }
}

=== FILE: finder_properties.dfy ===
/** Properties of the finder model: what the extension and target filters
    accept, what the base name is, which lines count as references, that the
    early-exit scan agrees with a full scan, that a target never references
    itself, and exactly what is printed. */
module FinderProperties {
  import opened Wrappers
  import opened JavaStrings
  import opened FileReferenceFinder

  // ---------------------------------------------------------------------
  // Extension filter

  /** The extension test is a case-insensitive suffix test on `.java`. */
  lemma ValidExtensionIgnoresCase(name: string)
    ensures HasValidExtension(name) <==>
      |name| >= 5 && SameIgnoringCase(name[|name| - 5..], JavaExtension)
  {
    var n := |name|;
    assert ToLower(JavaExtension) == JavaExtension;
    assert HasValidExtension(name) <==> EndsWith(ToLower(name), JavaExtension);
    if n >= 5 {
      ToLowerSuffix(name, n - 5);
      SameIgnoringCaseIffLowerEqual(name[n - 5..], JavaExtension);
    }
  }

  lemma UpperCaseExtensionIsKept()
    ensures HasValidExtension("Foo.JAVA")
  {
    ValidExtensionIgnoresCase("Foo.JAVA");
  }

  lemma ShortExtensionIsDropped()
    ensures !HasValidExtension("Foo.jav")
  {
    ValidExtensionIgnoresCase("Foo.jav");
    assert ToLowerChar("Foo.jav"[2]) != ToLowerChar(JavaExtension[0]);
  }

  /** Collection keeps the walk's order: collecting a concatenation is the
      concatenation of the collections. */
  lemma {:induction false} CollectFilesAppend(a: seq<Entry>, b: seq<Entry>)
    ensures CollectFiles(a + b) == CollectFiles(a) + CollectFiles(b)
    decreases |a|
  {
    if |a| == 0 {
      assert a + b == b;
    } else {
      assert (a + b)[1..] == a[1..] + b;
      CollectFilesAppend(a[1..], b);
    }
  }

  // ---------------------------------------------------------------------
  // Target filter

  /** The target filter is satisfiable: its `.java` test is implied by the
      `Test.java` test, so the targets are exactly the names ending,
      case-sensitively, in `Test.java`. */
  lemma TargetIffTestSuffix(name: string)
    ensures IsTarget(name) <==> EndsWith(name, TestSuffix)
  {
    assert EndsWith(TestSuffix, JavaExtension);
    if EndsWith(name, TestSuffix) {
      EndsWithTransitive(name, TestSuffix, JavaExtension);
    }
  }

  lemma TargetExamples()
    ensures IsTarget("FooTest.java")
    ensures !IsTarget("Foo.java")
    ensures !IsTarget("Foo.JAVA")
    ensures !IsTarget("FooTest.JAVA")
    ensures !IsTarget("Test.javax")
  {
    TargetIffTestSuffix("FooTest.java");
    TargetIffTestSuffix("Foo.java");
  }

  /** Every target passes the extension filter, so it is among the collected
      files it is checked against. */
  lemma TargetsAreCollected(name: string)
    requires IsTarget(name)
    ensures HasValidExtension(name)
  {
    ValidExtensionIgnoresCase(name);
    var n := |name|;
    assert name[n - 5..] == JavaExtension;
  }

  /** The base name of a target is the name without its last five
      characters, and it still ends in `Test`. */
  lemma TargetBaseEndsInTest(name: string)
    requires IsTarget(name)
    ensures |TargetBase(name)| == |name| - 5
    ensures EndsWith(TargetBase(name), "Test")
  {
    var base := TargetBase(name);
    TargetIffTestSuffix(name);
    var n := |name|;
    var tail := name[n - 9..];
    assert tail == TestSuffix;
    assert TestSuffix[..4] == "Test";
    assert base == name[..n - 5];
    assert base[|base| - 4..] == tail[..4];
  }

  // ---------------------------------------------------------------------
  // Line predicate

  /** Indentation defeats the heuristic: a line starting with a blank or a
      tab never counts as a reference. */
  lemma LeadingBlankNeverMatches(line: string, base: string)
    requires |line| > 0 && (line[0] == ' ' || line[0] == '\t')
    ensures !LineMatches(line, base)
  {
  }

  /** The prefix test is literal: `importance` passes it. */
  lemma ImportLinesMatch()
    ensures LineMatches("importance Foo", "Foo")
    ensures LineMatches("import pkg.B;", "B")
  {
    assert OccursAt("importance Foo", "Foo", 11);
    assert OccursAt("import pkg.B;", "B", 11);
  }

  /** A commented-out import, and an import of another name, do not count. */
  lemma OtherLinesDoNotMatch()
    ensures !LineMatches("// import Foo;", "Foo")
    ensures !LineMatches("import Bar;", "Foo")
  {
    assert "// import Foo;"[..|ImportKeyword|] != ImportKeyword by {
      assert "// import Foo;"[..|ImportKeyword|][0] == '/';
    }
    var s := "import Bar;";
    forall i: nat
      ensures !OccursAt(s, "Foo", i)
    {
      if i + 3 <= |s| {
        assert s[i..i + 3][0] == s[i];
      }
    }
  }

  // ---------------------------------------------------------------------
  // Per-file scan

  /** A scan that reads every line without stopping, or-ing each line's test
      into `found`: the shape of a loop without the early `return`. */
  function ScanAll(lines: seq<string>, base: string, found: bool): bool
    decreases |lines|
  {
    if |lines| == 0 then found
    else ScanAll(lines[1..], base, found || LineMatches(lines[0], base))
  }

  lemma {:induction false} ScanAllIff(lines: seq<string>, base: string, found: bool)
    ensures ScanAll(lines, base, found) <==>
      found || exists k | 0 <= k < |lines| :: LineMatches(lines[k], base)
    decreases |lines|
  {
    if |lines| > 0 {
      ScanAllIff(lines[1..], base, found || LineMatches(lines[0], base));
      assert forall k :: 1 <= k < |lines| ==> lines[1..][k - 1] == lines[k];
    }
  }

  /** Returning at the first matching line gives the answer a full scan
      gives, and an unreadable file gives false. */
  lemma EarlyExitAgreesWithFullScan(content: Option<seq<string>>, base: string)
    ensures Mentions(content, base) <==> content.Some? && ScanAll(content.value, base, false)
    ensures content.None? ==> !Mentions(content, base)
  {
    if content.Some? {
      ScanAllIff(content.value, base, false);
    }
  }

  /** A read that ends in the `catch` after non-matching lines answers false
      whether it is written as the lines read or as a failure. */
  lemma UnmatchedReadIsLikeFailure(lines: seq<string>, base: string)
    requires forall k | 0 <= k < |lines| :: !LineMatches(lines[k], base)
    ensures Mentions(Some(lines), base) == Mentions(None, base)
    ensures !Mentions(Some(lines), base)
  {
  }

  // ---------------------------------------------------------------------
  // All-pairs check

  /** The target's own lines never decide whether it is referenced. */
  lemma SelfContentIrrelevant(corpus: seq<Entry>, t: nat, base: string, c: Option<seq<string>>)
    requires t < |corpus|
    ensures Referenced(corpus[t := corpus[t].(content := c)], t, base) <==> Referenced(corpus, t, base)
  {
    var changed := corpus[t := corpus[t].(content := c)];
    if Referenced(corpus, t, base) {
      var j :| 0 <= j < |corpus| && corpus[j].path != corpus[t].path && Mentions(corpus[j].content, base);
      assert changed[j] == corpus[j];
    }
    if Referenced(changed, t, base) {
      var j :| 0 <= j < |changed| && changed[j].path != changed[t].path && Mentions(changed[j].content, base);
      assert changed[j] == corpus[j];
    }
  }

  /** A corpus produced by one directory walk lists each file once. */
  predicate DistinctPaths(corpus: seq<Entry>) {
    forall i, j | 0 <= i < j < |corpus| :: corpus[i].path != corpus[j].path
  }

  /** When each file appears once, skipping the target by identity is
      skipping exactly its own index. */
  lemma ReferencedByAnotherIndex(corpus: seq<Entry>, t: nat, base: string)
    requires t < |corpus| && DistinctPaths(corpus)
    ensures Referenced(corpus, t, base) <==>
      exists j | 0 <= j < |corpus| :: j != t && Mentions(corpus[j].content, base)
  {
    if exists j | 0 <= j < |corpus| :: j != t && Mentions(corpus[j].content, base) {
      var j :| 0 <= j < |corpus| && j != t && Mentions(corpus[j].content, base);
      if j < t {
        assert corpus[j].path != corpus[t].path;
      } else {
        assert corpus[t].path != corpus[j].path;
      }
    }
  }

  /** `foundReference` is monotone along the inner loop. */
  lemma ReferencedWithinMonotone(corpus: seq<Entry>, t: nat, base: string, s1: nat, s2: nat)
    requires t < |corpus| && s1 <= s2 <= |corpus|
    ensures ReferencedWithin(corpus, t, base, s1) ==> ReferencedWithin(corpus, t, base, s2)
    ensures ReferencedWithin(corpus, t, base, |corpus|) <==> Referenced(corpus, t, base)
  {
  }

  // ---------------------------------------------------------------------
  // Reporter

  /** Entry `t` is an unreferenced target and `line` is its report line. */
  predicate PrintedFor(corpus: seq<Entry>, t: nat, line: string)
    requires t < |corpus|
  {
    IsTarget(corpus[t].name)
    && !Referenced(corpus, t, TargetBase(corpus[t].name))
    && line == NoImportsPrefix + corpus[t].path
  }

  /** A line is printed while processing the first `n` entries iff it names
      an unreferenced target among them. */
  lemma {:induction false} ReportPrefixMembership(corpus: seq<Entry>, n: nat, line: string)
    requires n <= |corpus|
    ensures line in ReportPrefix(corpus, n) <==> exists t | 0 <= t < n :: PrintedFor(corpus, t, line)
    decreases n
  {
    if n > 0 {
      ReportPrefixMembership(corpus, n - 1, line);
      var prev := ReportPrefix(corpus, n - 1);
      var last := ReportFor(corpus, n - 1);
      assert ReportPrefix(corpus, n) == prev + last;
      assert line in last <==> PrintedFor(corpus, n - 1, line);
      if line in prev + last {
        if line in prev {
          var t :| 0 <= t < n - 1 && PrintedFor(corpus, t, line);
          assert 0 <= t < n && PrintedFor(corpus, t, line);
        }
      } else {
        forall t | 0 <= t < n
          ensures !PrintedFor(corpus, t, line)
        {
          if t < n - 1 {
            assert !(exists t' | 0 <= t' < n - 1 :: PrintedFor(corpus, t', line));
          }
        }
      }
    }
  }

  /** At most one line per entry. */
  lemma {:induction false} ReportPrefixLength(corpus: seq<Entry>, n: nat)
    requires n <= |corpus|
    ensures |ReportPrefix(corpus, n)| <= n
    decreases n
  {
    if n > 0 {
      ReportPrefixLength(corpus, n - 1);
    }
  }

  /** For a non-empty corpus, the printed lines are exactly one per
      unreferenced target, and nothing else. */
  lemma OutputMembership(corpus: seq<Entry>, line: string)
    requires |corpus| > 0
    ensures line in ExpectedOutput(corpus) <==> exists t | 0 <= t < |corpus| :: PrintedFor(corpus, t, line)
    ensures |ExpectedOutput(corpus)| <= |corpus|
  {
    ReportPrefixMembership(corpus, |corpus|, line);
    ReportPrefixLength(corpus, |corpus|);
  }

  /** The "no files" message is not a report line, whatever the path. */
  lemma NoFilesMessageIsNotAReport(p: string)
    ensures NoFilesMessage != NoImportsPrefix + p
  {
    assert NoFilesMessage[3] == 'f';
    assert (NoImportsPrefix + p)[3] == 'i';
  }

  /** The "no files" message is printed iff nothing was collected. */
  lemma NoFilesMessageIffEmpty(corpus: seq<Entry>)
    ensures NoFilesMessage in ExpectedOutput(corpus) <==> |corpus| == 0
    ensures |corpus| == 0 ==> ExpectedOutput(corpus) == [NoFilesMessage]
  {
    if |corpus| > 0 {
      OutputMembership(corpus, NoFilesMessage);
      if NoFilesMessage in ExpectedOutput(corpus) {
        var t :| 0 <= t < |corpus| && PrintedFor(corpus, t, NoFilesMessage);
        NoFilesMessageIsNotAReport(corpus[t].path);
      }
    }
  }

  /** A corpus without targets prints nothing, however its files import
      one another. */
  lemma {:induction false} NoTargetsNoOutput(corpus: seq<Entry>, n: nat)
    requires n <= |corpus|
    requires forall t | 0 <= t < |corpus| :: !IsTarget(corpus[t].name)
    ensures ReportPrefix(corpus, n) == []
    decreases n
  {
    if n > 0 {
      NoTargetsNoOutput(corpus, n - 1);
    }
  }

  // ---------------------------------------------------------------------
  // Scenarios

  /** `Foo.java` imported by `Bar.java`: neither is a target, nothing is
      printed. */
  lemma PlainFilesAreNeverChecked()
    ensures ExpectedOutput([
      Entry("Foo.java", "Foo.java", Some(["class Foo {}"])),
      Entry("Bar.java", "Bar.java", Some(["import Foo;"]))]) == []
  {
    var corpus := [
      Entry("Foo.java", "Foo.java", Some(["class Foo {}"])),
      Entry("Bar.java", "Bar.java", Some(["import Foo;"]))];
    TargetIffTestSuffix("Foo.java");
    TargetIffTestSuffix("Bar.java");
    NoTargetsNoOutput(corpus, 2);
  }

  /** A self-import does not count: a lone test file importing itself is
      reported. */
  lemma SelfImportIsReported()
    ensures ExpectedOutput([Entry("FooTest.java", "src/FooTest.java", Some(["import FooTest;"]))])
         == [NoImportsPrefix + "src/FooTest.java"]
  {
    var target := Entry("FooTest.java", "src/FooTest.java", Some(["import FooTest;"]));
    var corpus := [target];
    assert "FooTest.java"[3..] == TestSuffix;
    TargetIffTestSuffix(target.name);
    var base := TargetBase(target.name);
    assert !Referenced(corpus, 0, base);
    assert ReportFor(corpus, 0) == [NoImportsPrefix + target.path];
    assert ReportPrefix(corpus, 1) == ReportPrefix(corpus, 0) + ReportFor(corpus, 0);
  }

  /** The second line of `Bar.java` below imports `FooTest`. */
  lemma LaterLineMentionsFooTest()
    ensures Mentions(Some(["package pkg;", "import pkg.FooTest;"]), "FooTest")
  {
    var lines := ["package pkg;", "import pkg.FooTest;"];
    assert OccursAt(lines[1], "FooTest", 11);
    assert LineMatches(lines[1], "FooTest");
  }

  /** A test file imported on a later line of another file is referenced:
      nothing is printed. */
  lemma ImportOnLaterLineCounts()
    ensures ExpectedOutput([
      Entry("FooTest.java", "FooTest.java", Some(["class FooTest {}"])),
      Entry("Bar.java", "Bar.java", Some(["package pkg;", "import pkg.FooTest;"]))]) == []
  {
    var target := Entry("FooTest.java", "FooTest.java", Some(["class FooTest {}"]));
    var other := Entry("Bar.java", "Bar.java", Some(["package pkg;", "import pkg.FooTest;"]));
    var corpus := [target, other];
    assert "FooTest.java"[3..] == TestSuffix;
    TargetIffTestSuffix(target.name);
    TargetIffTestSuffix(other.name);
    var base := TargetBase(target.name);
    assert base == "FooTest" by {
      assert base == "FooTest.java"[..7];
    }
    LaterLineMentionsFooTest();
    assert corpus[1].path != corpus[0].path;
    assert Referenced(corpus, 0, base);
    assert ReportFor(corpus, 0) == [];
    assert ReportFor(corpus, 1) == [];
    assert ReportPrefix(corpus, 2) == ReportPrefix(corpus, 1) + ReportFor(corpus, 1);
  }

  /** An unreadable file contributes nothing, so a test file whose only
      would-be referrer cannot be read is reported. */
  lemma UnreadableFileIsNoReference()
    ensures ExpectedOutput([
      Entry("FooTest.java", "FooTest.java", Some([])),
      Entry("Bar.java", "Bar.java", None)]) == [NoImportsPrefix + "FooTest.java"]
  {
    var target := Entry("FooTest.java", "FooTest.java", Some([]));
    var other := Entry("Bar.java", "Bar.java", None);
    var corpus := [target, other];
    assert "FooTest.java"[3..] == TestSuffix;
    TargetIffTestSuffix(target.name);
    TargetIffTestSuffix(other.name);
    var base := TargetBase(target.name);
    assert !Referenced(corpus, 0, base);
    assert ReportFor(corpus, 0) == [NoImportsPrefix + target.path];
    assert ReportFor(corpus, 1) == [];
    assert ReportPrefix(corpus, 2) == ReportPrefix(corpus, 1) + ReportFor(corpus, 1);
  }
}

=== FILE: java_strings.dfy ===
/** The handful of `java.lang.String` operations the finder relies on, over
    strings as sequences of Unicode scalar values (`seq<char>`), that is, of
    decoded characters rather than UTF-16 code units. */
module JavaStrings {

  /** `s.startsWith(prefix)` */
  predicate StartsWith(s: string, prefix: string) {
    |prefix| <= |s| && s[..|prefix|] == prefix
  }

  /** `s.endsWith(suffix)` */
  predicate EndsWith(s: string, suffix: string) {
    |suffix| <= |s| && s[|s| - |suffix|..] == suffix
  }

  /** `sub` occurs in `s` starting at index `i`. */
  predicate OccursAt(s: string, sub: string, i: nat) {
    i + |sub| <= |s| && s[i..i + |sub|] == sub
  }

  lemma OccursAtTail(s: string, sub: string)
    requires |s| > 0
    ensures forall i: nat :: OccursAt(s[1..], sub, i) <==> OccursAt(s, sub, i + 1)
  {
    forall i: nat
      ensures OccursAt(s[1..], sub, i) <==> OccursAt(s, sub, i + 1)
    {
      if i + |sub| + 1 <= |s| {
        assert s[1..][i..i + |sub|] == s[i + 1..i + 1 + |sub|];
      }
    }
  }

  /** `s.contains(sub)`: true iff `sub` occurs as a contiguous block of `s`
      (the empty string occurs in every string). */
  function Contains(s: string, sub: string): (b: bool)
    ensures b <==> exists i: nat :: OccursAt(s, sub, i)
    decreases |s|
  {
    if StartsWith(s, sub) then
      assert OccursAt(s, sub, 0);
      true
    else if |s| == 0 then
      false
    else
      var rest := Contains(s[1..], sub);
      OccursAtTail(s, sub);
      assert !OccursAt(s, sub, 0);
      assert forall i: nat :: OccursAt(s, sub, i) ==> i > 0 && OccursAt(s[1..], sub, i - 1);
      rest
  }

  /** `s.lastIndexOf(c)`: the position of the last `c` in `s`, or -1 when `c`
      does not occur. */
  function LastIndexOf(s: string, c: char): (r: int)
    ensures -1 <= r < |s|
    ensures r == -1 <==> c !in s
    ensures r >= 0 ==> s[r] == c && c !in s[r + 1..]
    decreases |s|
  {
    if |s| == 0 then -1
    else if s[|s| - 1] == c then |s| - 1
    else
      var r := LastIndexOf(s[..|s| - 1], c);
      assert s == s[..|s| - 1] + [s[|s| - 1]];
      if r >= 0 then
        assert s[r + 1..] == s[..|s| - 1][r + 1..] + [s[|s| - 1]];
        r
      else r
  }

  /** Lower-casing of one character; only the ASCII letters A-Z are folded. */
  function ToLowerChar(c: char): char {
    if 'A' <= c <= 'Z' then (c as int - 'A' as int + 'a' as int) as char else c
  }

  /** `s.toLowerCase()` restricted to ASCII folding: same length, each
      character folded on its own. */
  function ToLower(s: string): (r: string)
    ensures |r| == |s|
    ensures forall i :: 0 <= i < |s| ==> r[i] == ToLowerChar(s[i])
    decreases |s|
  {
    if |s| == 0 then [] else [ToLowerChar(s[0])] + ToLower(s[1..])
  }

  /** Two strings are equal once each character is lower-cased. */
  predicate SameIgnoringCase(a: string, b: string) {
    |a| == |b| && forall i :: 0 <= i < |a| ==> ToLowerChar(a[i]) == ToLowerChar(b[i])
  }

  /** Comparing while ignoring case is comparing the lower-cased strings. */
  lemma SameIgnoringCaseIffLowerEqual(a: string, b: string)
    ensures SameIgnoringCase(a, b) <==> ToLower(a) == ToLower(b)
  {
    if ToLower(a) == ToLower(b) {
      assert |a| == |ToLower(a)|;
      forall i | 0 <= i < |a|
        ensures ToLowerChar(a[i]) == ToLowerChar(b[i])
      {
        assert ToLower(a)[i] == ToLower(b)[i];
      }
    }
  }

  /** Lower-casing commutes with taking a suffix. */
  lemma ToLowerSuffix(s: string, k: nat)
    requires k <= |s|
    ensures ToLower(s)[k..] == ToLower(s[k..])
  {
  }

  /** Being a suffix is transitive. */
  lemma EndsWithTransitive(s: string, t: string, u: string)
    requires EndsWith(s, t) && EndsWith(t, u)
    ensures EndsWith(s, u)
  {
    assert s[|s| - |u|..] == s[|s| - |t|..][|t| - |u|..];
  }
}

=== FILE: wrappers.dfy ===
/** Optional values, used for a file that could not be read and for a name
    without an extension dot. */
module Wrappers {

  datatype Option<+T> = None | Some(value: T)
}
